=== FILE: README.md ===
# Battleship game logic in Dafny

A model of the sequential logic of a browser Battleship game, with proofs about it. Two fleets of straight ships hide on 10×10 boards, and the players take turns attacking cells of the opposing board. The model covers five parts of the program:

- **Fleet model** (`src/game.js`, module `Game`, file `game.dfy`). A `Ship` counts its hits and caches a sunk flag. A `Gameboard` writes ships onto a 10×10 grid, resolves attacks and tests whether the whole fleet is sunk. One JavaScript `Ship` object is shared by every cell it covers. The model keeps that aliasing by naming ships with a `ShipId`. Grid cells hold `Option<ShipId>`, and the board's `fleet` map holds the one record per ship.
- **Computer opponent** (`createEnemyAI` in `src/single-player-controller.js`, module `Targeting`, file `targeting.dfy`). A hunt/target strategy with a queue of pending cells:
  - Hunt phase: parity-biased random draws in which parity filters the first 49 draws and a 100-draw cap ends the hunt.
  - Target phase: after a hit on a ship still afloat, the open orthogonal neighbours go to the front of the queue.
  - A sinking hit clears the queue.
  - An `already_attacked` answer starts the turn over.

  The opponent board is a grid of cells. Each cell is either resolved (marked hit or miss) or open, and an open cell carries what an attack on it reports. The board therefore answers `AlreadyAttacked` exactly on resolved cells. `Math.random` becomes an explicit sequence of candidate cells. The retry has no termination guarantee in the source, so it is bounded by fuel.
- **Turn and winner state machines** (`src/single-player-controller.js` and `src/multiplayer-controller.js`; modules `SinglePlayer`, `Multiplayer` and the shared `Rounds`):
  - The state is whether the game runs and whose turn it is, compared by name. The multiplayer state also records whether player 2's ships are placed.
  - Boards enter only as the answers of `allShipsSunk` (`Rounds.Fleets`). A clicked cell enters only as its hit/miss marker (`Rounds.Mark`).
  - Each delayed turn hand-off (`setTimeout`) is one atomic step.
- **Player names** (`src/game-controller-clean.js`, module `PlayerNames`, file `player_names.dfy`). Covers `capitalizeFirstLetter`, `trim()` and the name-form rule that replaces the default names "Player 1" and "Computer".

- **Controller wiring** (`initializeGameController` and the "ready" button in `src/game-controller-clean.js`, module `Wiring`, file `wiring.dfy`). The page calls controller methods by name, and a name the controller does not return throws.

`wrappers.dfy` defines the `Option` type the other modules use.

### Behaviour of the code that the model keeps

- `allShipsSunk` is vacuously true on an empty fleet, so a fresh board already counts as defeated (`Game.NewBoardIsDefeated`).
- `receiveAttack` never marks a cell. Attacking the same ship cell again hits the ship again (`Game.RepeatedAttacksKeepHitting`).
- `placeShip` has no overlap check, and later ships overwrite cells. The ship is appended to `ships` before the bounds check runs. The bounds check tests the wrong axis (see Findings).
- The controllers are written against a `Gameboard` whose `receiveAttack` returns `{result, ship, cellIndex}` and whose cells are marked "hit"/"miss". They import their `Gameboard` from `src/game.js` (src/single-player-controller.js:1, src/multiplayer-controller.js:1), and that one does neither: its `receiveAttack` returns a boolean. So, as the files are written, `attackResult.result` is always undefined: no marker is added, `already_attacked` never arrives, and the target phase never fills its queue. The model follows the API the controllers are written against, with abstract boards, not `Game.Board`.

## Model

| member | source | states |
|---|---|---|
| Game.NewShip | src/game.js:3-8 | a new ship has the given name and length, zero hits and is not sunk |
| Game.Hit | src/game.js:11-13 | `hit()` raises the hit count by exactly one and leaves name, length and sunk flag alone |
| Game.IsSunk | src/game.js:16-21 | `isSunk()` answers true iff the hits reached the length or the flag was already set; the returned ship caches that answer, so a sunk ship never un-sinks |
| Game.HitTimes | src/game.js:11-13 | n hits in a row add exactly n to the hit count and change nothing else |
| Game.IsSunkIdempotent | src/game.js:16-21 | a second sunk check changes neither the ship nor the answer |
| Game.SunkIsPermanent | src/game.js:16-21 | once a sunk check answered true, any number of later hits and a new check still answer true |
| Game.SunkAfterLengthHits | src/game.test.js:22-39 | a fresh ship of length L reports sunk after n hits exactly when n >= L (afloat after L-1, sunk after L) |
| Game.NewBoard | src/game.js:25-28 | a new board has a 10x10 grid of empty cells, an empty ship list and no known ships |
| Game.Fill | src/game.js:37-46 | after k iterations of the write loop exactly the first k cells of the run (along y when horizontal, along x when vertical) hold the ship and every other cell is unchanged |
| Game.PlaceShip | src/game.js:30-48 | the ship is appended to `ships` whether or not the placement succeeds; the placement fails iff the coded check fails (x+len>10 horizontal, y+len>10 vertical) and then the grid is unchanged; on success exactly the covered cells hold the ship, overwriting earlier occupants, and all other cells are unchanged |
| Game.CodedCheckTestsWrongAxis | src/game.js:33-45 | a horizontal ship that fits on the grid is refused and one that runs off the grid passes the coded check; the intended check decides both correctly |
| Game.PlaceShipFixed | src/game.js:33-45 | with the check on the axis of the writes, for any origin on the grid, the placement commits iff every cell of the ship is on the grid, with the same cell-level effect as the coded version |
| Game.RefusedPlacementBlocksDefeat | src/game.js:30-36 | a refused placement of a ship absent from the grid still joins `ships`, so `allShipsSunk` is false afterwards |
| Game.ReceiveAttack | src/game.js:50-56 | an attack answers true iff the cell holds a ship, then adds one hit to that ship and to no other; the grid and ship list are never modified |
| Game.AttackMissesShipOffGrid | src/game.js:50-56 | a ship with no cell on the grid is untouched by any attack |
| Game.AttackTimes | src/game.js:50-56 | n calls of `receiveAttack` on one cell leave the grid and the ship list unchanged and keep the board well formed |
| Game.RepeatedAttacksKeepHitting | src/game.js:50-56 | n attacks on the same occupied cell add n hits to its ship, so one cell can sink a whole ship |
| Game.EverySunk | src/game.js:58-61 | `every(isSunk)` answers true iff every listed ship reports sunk; each record is either unchanged or has its cached flag refreshed, and ships not in the list keep their record |
| Game.AllShipsSunk | src/game.js:58-61 | true iff every ship in `ships` reports sunk, so true on an empty fleet; grid, ship list and every ship's hits and sunk answer are unchanged; a ship record changes at most by having its cached sunk flag refreshed |
| Game.AllShipsSunkStable | src/game.js:58-61 | asking `allShipsSunk` again gives the same answer |
| Game.NewBoardIsDefeated | src/game.js:58-61 | a freshly constructed board already counts as defeated |
| Game.ThreeHitsSinkCruiser | src/game.js:30-61 | a length-3 ship placed horizontally at row 4, column 2 covers (4,2),(4,3),(4,4); three attacks there hit, the board is defeated after the third and not after the second, and re-attacking (4,3) still hits |
| Targeting.Attack | src/single-player-controller.js:167-170 | the board answers `already_attacked` exactly on cells marked hit or miss, and otherwise the hit or miss the open cell holds |
| Targeting.HuntFrom | src/single-player-controller.js:154-164 | the hunt loop stops at the first draw that is not rejected; every earlier draw was rejected, and the draw count never passes 100 |
| Targeting.Hunt | src/single-player-controller.js:154-164 | the hunt uses between 1 and 100 draws and picks the last draw it used; stopping before 100 draws gives a cell that is neither hit nor miss, and stopping before 50 gives a cell with even x+y |
| Targeting.HuntFailsOnlyIfAllRejected | src/single-player-controller.js:154-164 | a hunt that finds no cell has rejected every candidate it was given |
| Targeting.KeepWorth | src/single-player-controller.js:190-198 | the filter keeps exactly the in-bounds cells that are not hit or miss, in their original order |
| Targeting.KeepWorthCounts | src/single-player-controller.js:190-198 | the filter keeps every copy of a cell worth queueing and drops every copy of any other cell |
| Targeting.NewTargets | src/single-player-controller.js:185-198 | at most four cells are queued, each on the board, orthogonally adjacent to the struck cell and unresolved, in the order (x-1,y),(x+1,y),(x,y-1),(x,y+1); all four when all are open |
| Targeting.NewTargetsComplete | src/single-player-controller.js:185-198 | a cell is queued iff it is adjacent to the struck cell, on the board and unresolved |
| Targeting.CornerQueuesTwo | src/single-player-controller.js:185-198 | a hit in the corner (0,0) queues only (1,0) then (0,1) |
| Targeting.AdjacentMeansDistanceOne | src/single-player-controller.js:185-189 | the neighbour relation is symmetric and is exactly Manhattan distance one |
| Targeting.Choose | src/single-player-controller.js:149-165 | with a non-empty queue the target is its front and the queue loses exactly that element; with an empty queue the target is the hunted cell and the draws it used are consumed |
| Targeting.ChooseFailsOnlyIfHuntFails | src/single-player-controller.js:149-165 | with an empty queue there is a cell to attack exactly when the hunt finds one |
| Targeting.Requeue | src/single-player-controller.js:177-205 | after a hit on a ship still afloat the queue is the filtered neighbours followed by the old queue; a sinking hit empties it; a miss leaves it |
| Targeting.RunFacts | src/single-player-controller.js:146-206 | by induction on the retries, every turn of `makeSmartAttack` keeps all the promises listed for `Targeting.SmartAttack` |
| Targeting.SmartAttack | src/single-player-controller.js:146-206 | a completed turn resolves exactly one cell that was on the board and neither hit nor miss; the queue stays on the board and only gains neighbours of an unsunk hit; a sinking hit clears it; with an open cell at the queue's front, that cell is attacked and the queue updated as above; with an empty queue, the cell attacked is the one the hunt settles on (so the 100-draw cap, the parity filter and the draw order decide it), the draws it used are consumed, and a hunt that runs out of candidates stalls the turn |
| Targeting.SkipResolvedPrefix | src/single-player-controller.js:150-170 | queued cells already marked are shifted off one retry at a time, each answer `already_attacked`, and the turn goes on as if they had never been queued, with the same candidates |
| Targeting.HuntCapRetry | src/single-player-controller.js:154-170 | a hunt that settles on a cell already marked can only have hit the 100-draw cap; the attack answers `already_attacked` and the turn starts over with an empty queue and the draws it used consumed |
| Targeting.FirstOpenQueued | src/single-player-controller.js:150-170 | when the first i queued cells are already marked and cell i is open, the turn attacks cell i and keeps the cells behind it, updated by the outcome |
| Targeting.Resolve | src/single-player-controller.js:177-205 | the attacked cell becomes marked hit or miss and no other cell changes (only markers are modelled; what the open cells report is not updated) |
| Targeting.SmartAttackKeepsQueueNearHits | src/single-player-controller.js:184-202 | if every queued cell is next to a cell marked hit before a turn, the same holds after it |
| Targeting.NextShotFollowsHit | src/single-player-controller.js:149-199 | after a hit on a ship still afloat, the next turn completes and attacks a cell orthogonally adjacent to that hit, provided the first neighbour queued is still open |
| Rounds.DetectWinner | src/multiplayer-controller.js:200-209 | player 2 wins iff player 1's fleet is sunk, even when both are; player 1 wins iff only player 2's fleet is sunk; no winner iff neither is |
| Rounds.NameOf | src/single-player-controller.js:222-225 | the winner is announced under the name of the winning side |
| SinglePlayer.Initial | src/single-player-controller.js:73-74 | the game starts not running, on the human's turn |
| SinglePlayer.DeclareWinner | src/single-player-controller.js:222-233 | announcing a winner stops the game and leaves the turn unchanged |
| SinglePlayer.PlayRound | src/single-player-controller.js:122-141 | a winner after the human's attack keeps the turn from the computer; otherwise the turn passes to the computer, which moves only while the game runs, and comes back to the human only if the computer's move leaves no winner |
| SinglePlayer.HandlePlayerAttack | src/single-player-controller.js:99-119 | a click is accepted only while the game runs, on the human's turn, on a cell not marked hit or miss; a refused click changes nothing |
| SinglePlayer.Forfeit | src/single-player-controller.js:245-261 | forfeit works only on the human's turn, stops the game and names the computer as winner |
| SinglePlayer.StartGame | src/single-player-controller.js:235-243 | starting sets the game running on the human's turn |
| SinglePlayer.Restart | src/single-player-controller.js:275-280 | restarting returns to the initial state: not running, human's turn |
| SinglePlayer.StepsKeepTurnOnAPlayer | src/single-player-controller.js:122-141 | every step leaves the turn on one of the two player names |
| SinglePlayer.NoAttackAfterWinner | src/single-player-controller.js:99-141 | after a winner is announced no further click is accepted |
| SinglePlayer.QuietRoundReturnsTurn | src/single-player-controller.js:122-141 | an accepted click with no winner on either side lets the computer move and returns a turn on which the next click is accepted |
| Multiplayer.Initial | src/multiplayer-controller.js:18-20 | not running, player 1's turn, player 2's ships not placed |
| Multiplayer.Attacker | src/multiplayer-controller.js:105-143 | player 2's grid is attacked on player 1's turn and player 1's grid on player 2's |
| Multiplayer.Toggle | src/multiplayer-controller.js:170-173 | the turn goes to player 2 when it is player 1's by name, and to player 1 otherwise |
| Multiplayer.SwitchTurn | src/multiplayer-controller.js:167-177 | a detected winner stops the game and leaves the turn unchanged; otherwise the turn toggles and nothing else changes |
| Multiplayer.HandleAttack | src/multiplayer-controller.js:103-165 | a click on a grid is accepted only while the game runs, on the other player's turn, on an unmarked cell, and is then followed by the turn switch; a refused click changes nothing |
| Multiplayer.Forfeit | src/multiplayer-controller.js:231-252 | forfeit stops the game at any time and names as winner the player whose turn it is not |
| Multiplayer.StartGame | src/multiplayer-controller.js:222-229 | starting sets the game running on player 1's turn |
| Multiplayer.ResetGameState | src/multiplayer-controller.js:292-298 | reset stops the game, gives the turn to player 1 and clears the player-2-placed flag |
| Multiplayer.SwitchTwiceRestores | src/multiplayer-controller.js:170-173 | with distinct names, two switches with no winner restore the original turn |
| Multiplayer.EqualNamesNeverSwitch | src/multiplayer-controller.js:170-173 | with equal names the switch leaves the turn where it is |
| Multiplayer.GuardsExclusive | src/multiplayer-controller.js:105-143 | with distinct names at most one grid accepts clicks; with equal names both do |
| Multiplayer.TurnsAlternate | src/multiplayer-controller.js:103-177 | an accepted attack with no winner refuses the attacker's next click and accepts the defender's |
| Multiplayer.NoAttackAfterGameOver | src/multiplayer-controller.js:200-240 | after a winner is declared or the game is forfeited every click on either grid is refused |
| Multiplayer.ForfeitWinnerIsOpponent | src/multiplayer-controller.js:236-240 | with distinct names the forfeit winner is one of the players and never the one whose turn it is |
| Multiplayer.StepsKeepTurnOnAPlayer | src/multiplayer-controller.js:167-177 | every step leaves the turn on one of the two player names |
| PlayerNames.DefaultNames | src/game-controller-clean.js:34-37 | the names start as "Player 1" and "Computer", which differ |
| PlayerNames.ToUpper | src/game-controller-clean.js:14 | upper-casing maps a..z to A..Z and leaves every other character alone |
| PlayerNames.ToLower | src/game-controller-clean.js:14 | lower-casing maps A..Z to a..z and leaves every other character alone |
| PlayerNames.CaseRoundTrip | src/game-controller-clean.js:14 | upper- then lower-casing equals lower-casing, and both mappings are idempotent |
| PlayerNames.LowerAll | src/game-controller-clean.js:14 | `toLowerCase` keeps the length and lower-cases every character in place |
| PlayerNames.Capitalize | src/game-controller-clean.js:13-15 | the empty string stays empty; the length is kept; the first character is upper-cased and every later one lower-cased |
| PlayerNames.CapitalizeIdempotent | src/game-controller-clean.js:13-15 | capitalising twice equals capitalising once |
| PlayerNames.StartOf | src/game-controller-clean.js:90 | the leading run skipped by `trim` is all white space and ends at a non-space character or the end |
| PlayerNames.EndOf | src/game-controller-clean.js:90 | the trailing run cut by `trim` is all white space and starts after a non-space character or at the start |
| PlayerNames.Trim | src/game-controller-clean.js:90 | `trim` returns the contiguous piece between leading and trailing white space, with no space at either end, and is empty exactly when the input is all white space |
| PlayerNames.TrimOfTrimmed | src/game-controller-clean.js:90 | a string with no space at either end is its own trim |
| PlayerNames.TrimIdempotent | src/game-controller-clean.js:90 | trimming twice equals trimming once |
| PlayerNames.Entered | src/game-controller-clean.js:90-99 | an input yields a name iff it is present and not all white space, and the name is the capitalised trimmed input |
| PlayerNames.SubmitNames | src/game-controller-clean.js:87-100 | player 1's name becomes the capitalised trimmed input iff that input is non-blank, else stays; player 2's name changes only in multiplayer mode with a non-blank input |
| PlayerNames.CaseKeepsSpaces | src/game-controller-clean.js:14 | case mapping never turns a white-space character into another character or back |
| PlayerNames.CapitalizeKeepsTrimmed | src/game-controller-clean.js:14 | capitalising a string with no space at its ends keeps it so |
| PlayerNames.SubmittedNamesAreClean | src/game-controller-clean.js:87-100 | starting from clean names, submitting the form never yields a blank name or one with spaces at its ends |
| PlayerNames.DefaultNamesAreClean | src/game-controller-clean.js:34-37 | the default names are non-blank with no spaces at their ends |
| Wiring.CallAll | src/game-controller-clean.js:116-145 | calling methods by name runs them in order until one the controller does not return; the calls that ran are a prefix of those made, and all of them run iff every name is returned by the controller |
| Wiring.MultiplayerWiringThrows | src/game-controller-clean.js:116-145 | as written, single-player start-up attaches its attack guards, but multiplayer start-up throws before any attack guard is attached, and player 2's "ready" button throws before the game starts |
| Wiring.FixedWiringAttaches | src/multiplayer-controller.js:410-419 | calling the names the controllers actually return, start-up attaches the attack guards in both modes and the "ready" button starts the game |

## Left out

- DOM construction, CSS, event wiring and dialogs in all controllers, plus `src/render.js`, `src/grid.js`, `src/ship-movement.js` and `src/index.js`: presentation only. The guard that a click landed on an element with class `grid-cell` is part of this.
- The `setTimeout` delays (1 s before the computer moves, 1.5 s before a multiplayer turn switch): each hand-off is one atomic step. The click race window those delays open is not modelled.
- `Math.random`: replaced by an explicit sequence of candidate cells. A hunt that runs out of candidates ends the turn as `Stalled`.
- Targeting.SmartAttack: the retry after `already_attacked` is bounded by fuel. A turn that runs out of fuel is `Stalled`, whereas the source would keep recursing.
- Targeting.SmartAttack: the early `return { hit: false }` when the grid element of the attacked cell is missing (src/single-player-controller.js:175) is DOM state and is not modelled. The model always updates the queue.
- The object-shaped `receiveAttack` the controllers call, together with `resetBoard`, `markShipHit`, `placeComputerShipsRandomly` and `setupRandomPlacement`: their code is not part of this model. The controllers see boards only through `allShipsSunk` answers. The targeting agent sees them through the cell view described above.
- `src/shipPlacement.js`, including the random fleet generator: it delegates to a `Gameboard.validatePlacement` that `src/game.js` does not define, and its random branch never places the ships it builds.
- `src/game-controller.js`: an earlier version of the controller logic modelled here. The rest of it is confetti, timers and floating-point animation.
- `removeShip`, `validatePlacement` and the attacked-cell index of a ship: `src/game.js` defines none of them.
- Game.PlaceShip: ship lengths and coordinates are integers. JavaScript would accept fractional numbers, and writes outside 0..9 are excluded by precondition rather than modelled: there the JavaScript grows a row or crashes.
- Game.ReceiveAttack: coordinates outside the grid are excluded by precondition; there the JavaScript crashes on `undefined`.
- PlayerNames.ToUpper, PlayerNames.ToLower, PlayerNames.LowerAll, PlayerNames.Capitalize: only ASCII letters change case. Unicode case mapping can change a string's length (for example, a sharp s upper-cases to two letters), and that is not modelled.
- PlayerNames.Capitalize: characters are Unicode scalar values, not UTF-16 code units. `charAt(0)` on a surrogate pair is not modelled.
- Loading screen, `sessionStorage`, game-mode selection and the rules dialog in `src/game-controller-clean.js`. The selected mode reaches the model as the `multiplayer` parameter of `PlayerNames.SubmitNames`.
- `resetBoard` in both controllers' restart: only the turn state is reset in the model.

## Findings

| source | as written | input that shows it | evidently intended | confidence | as-written member | corrected member |
|---|---|---|---|---|---|---|
| src/game.js:33-45 | the bounds check tests `x + length > 10` for a horizontal ship, whose cells run along `y` (and `y` for a vertical ship, which runs along `x`) | horizontal, length 3, at (9, 0): fits on the grid but is refused; horizontal, length 3, at (0, 8): passes the check and writes (0, 10) off the grid | check the axis the ship is written along: `y + length > 10` for horizontal, `x + length > 10` for vertical | high; not executed | Game.CodedCheckTestsWrongAxis (on Game.PlaceShip) | Game.PlaceShipFixed |
| src/game-controller-clean.js:142 | multiplayer start-up calls `gameController.handlePlayerAttacks()`, but the multiplayer controller returns that method as `handleAttacks` (src/multiplayer-controller.js:410-419) | multiplayer mode, on the start button (src/game-controller-clean.js:119): the call is to `undefined` and throws, so the click guards modelled by `Multiplayer.HandleAttack` are never attached | call `handleAttacks` | high; not executed | Wiring.MultiplayerWiringThrows (on Wiring.CallAll with Wiring.InitCalls) | Wiring.FixedWiringAttaches (with Wiring.InitCallsFixed) |
| src/game-controller-clean.js:132 | player 2's "ready" button calls `gameController.onPlayer2Ready()`, which neither controller returns, before `startGame()` | click the "ready" button in multiplayer mode: the first call throws and `startGame` never runs | call only methods the controller returns, here `startGame` | medium; not executed | Wiring.MultiplayerWiringThrows (on Wiring.CallAll with Wiring.ReadyCalls) | Wiring.FixedWiringAttaches (with Wiring.ReadyCallsFixed) |

No other part of the model places ships, so nothing else depends on either version of the placement. The turn state machines are modelled as the controllers define them, which is how they behave once the corrected wiring attaches them.

=== FILE: game.dfy ===
/** The fleet data model: a ship's damage counter with its cached sunk flag,
    and a 10x10 board whose cells refer to ships by id.

    A JavaScript `Ship` object is shared by every cell it was written into, so a
    hit through any of those cells bumps one counter. Here that aliasing is kept
    by naming each ship with a `ShipId`: cells hold `Option<ShipId>` and the
    board's `fleet` map holds the one mutable record per id. */
module Game {
  import opened Wrappers

  /** Rows and columns of every board. */
  const Size: int := 10

  type ShipId = nat

  /** A ship: its name, its length, the number of hits it has taken and the
      cached result of the last sunk check. */
  datatype Ship = Ship(name: string, length: int, hits: int, sunk: bool)

  /** What `isSunk()` answers for a ship: the cached flag, or enough hits. */
  predicate SunkNow(s: Ship) {
    s.sunk || s.hits >= s.length
  }

  /** `new Ship(name, length)`: the default hit count and sunk flag. */
  function NewShip(name: string, length: int): (r: Ship)
    ensures r.name == name && r.length == length
    ensures r.hits == 0 && !r.sunk
  {
    Ship(name, length, 0, false)
  }

  /** `hit()`: one more hit, nothing else changes (the sunk flag is only
      refreshed by `isSunk()`). */
  function Hit(s: Ship): (r: Ship)
    ensures r.hits == s.hits + 1
    ensures r.name == s.name && r.length == s.length && r.sunk == s.sunk
  {
    s.(hits := s.hits + 1)
  }

  /** `isSunk()`: returns the updated ship (the flag becomes true once the
      hits reach the length and is never cleared) and the answer. */
  function IsSunk(s: Ship): (r: (Ship, bool))
    ensures r.1 <==> s.sunk || s.hits >= s.length
    ensures r.0 == s.(sunk := r.1)
    ensures s.sunk ==> r.1
  {
    if s.hits >= s.length then (s.(sunk := true), true) else (s, s.sunk)
  }

  /** `n` calls of `hit()` in a row. */
  function HitTimes(s: Ship, n: nat): (r: Ship)
    ensures r == s.(hits := s.hits + n)
    decreases n
  {
    if n == 0 then s else Hit(HitTimes(s, n - 1))
  }

  /** A second sunk check neither changes the ship nor the answer. */
  lemma IsSunkIdempotent(s: Ship)
    ensures IsSunk(IsSunk(s).0) == IsSunk(s)
  {
  }

  /** Once a sunk check has answered true, later hits and checks keep it true. */
  lemma SunkIsPermanent(s: Ship, n: nat)
    requires IsSunk(s).1
    ensures IsSunk(HitTimes(IsSunk(s).0, n)).1
  {
  }

  /** A fresh ship of length `len` reports sunk after `n` hits exactly when
      `n >= len`; in particular it is afloat after `len - 1` hits. */
  lemma SunkAfterLengthHits(name: string, len: int, n: nat)
    ensures IsSunk(HitTimes(NewShip(name, len), n)).1 <==> n >= len
  {
  }

  // ---------------------------------------------------------------------
  // Gameboard

  type Grid = seq<seq<Option<ShipId>>>

  /** `board` is the grid, indexed `board[x][y]`; `ships` is the array of
      placed ships in placement order (the same id may appear twice); `fleet`
      holds the current state of every ship the board has seen. */
  datatype Board = Board(grid: Grid, ships: seq<ShipId>, fleet: map<ShipId, Ship>)

  predicate IsGrid(g: Grid) {
    |g| == Size && forall i :: 0 <= i < Size ==> |g[i]| == Size
  }

  /** Every id on the grid or in `ships` names a known ship. */
  predicate Valid(b: Board) {
    && IsGrid(b.grid)
    && (forall i, j :: 0 <= i < Size && 0 <= j < Size && b.grid[i][j].Some? ==> b.grid[i][j].value in b.fleet)
    && (forall k :: 0 <= k < |b.ships| ==> b.ships[k] in b.fleet)
  }

  /** Whether some cell of the grid holds `id`. */
  predicate OnGrid(g: Grid, id: ShipId)
    requires IsGrid(g)
  {
    exists i, j :: 0 <= i < Size && 0 <= j < Size && g[i][j] == Some(id)
  }

  /** `new Gameboard()`: a 10x10 grid of empty cells and no ships. */
  function NewBoard(): (r: Board)
    ensures Valid(r)
    ensures forall i, j :: 0 <= i < Size && 0 <= j < Size ==> r.grid[i][j] == None
    ensures r.ships == [] && r.fleet == map[]
  {
    Board(seq(Size, _ => seq(Size, _ => None)), [], map[])
  }

  /** The cell `(i, j)` lies on the run of `len` cells starting at `(x, y)`:
      a horizontal run goes along `y`, a vertical one along `x`. */
  predicate Covers(len: int, x: int, y: int, horizontal: bool, i: int, j: int) {
    if horizontal then i == x && y <= j < y + len
    else j == y && x <= i < x + len
  }

  /** Every cell the write loop touches is on the grid (a run of length zero
      or less touches nothing). */
  predicate WritesInBounds(len: int, x: int, y: int, horizontal: bool) {
    len <= 0 ||
    if horizontal then 0 <= x < Size && 0 <= y && y + len <= Size
    else 0 <= y < Size && 0 <= x && x + len <= Size
  }

  /** The bounds check `placeShip` performs: it tests `x` for a horizontal
      ship and `y` for a vertical one. */
  predicate CodedCheckFails(len: int, x: int, y: int, direction: string) {
    if direction == "horizontal" then x + len > Size else y + len > Size
  }

  function SetCell(g: Grid, i: int, j: int, v: Option<ShipId>): (r: Grid)
    requires IsGrid(g) && 0 <= i < Size && 0 <= j < Size
    ensures IsGrid(r)
    ensures forall a, b :: 0 <= a < Size && 0 <= b < Size ==> r[a][b] == if a == i && b == j then v else g[a][b]
  {
    g[i := g[i][j := v]]
  }

  /** The write loop of `placeShip` after `k` iterations: cells with offset
      `0 .. k - 1` along the run now hold `id`. */
  function Fill(g: Grid, id: ShipId, x: int, y: int, horizontal: bool, k: int): (r: Grid)
    requires IsGrid(g)
    requires WritesInBounds(k, x, y, horizontal)
    ensures IsGrid(r)
    ensures forall i, j :: 0 <= i < Size && 0 <= j < Size ==>
              r[i][j] == if Covers(k, x, y, horizontal, i, j) then Some(id) else g[i][j]
    decreases k
  {
    if k <= 0 then g
    else
      var g' := Fill(g, id, x, y, horizontal, k - 1);
      if horizontal then SetCell(g', x, y + k - 1, Some(id))
      else SetCell(g', x + k - 1, y, Some(id))
  }

  /** Outcome of `placeShip`: the bounds check either passed or threw. Both
      carry the board afterwards, since the ship is appended to `ships`
      before the check. */
  datatype Placement = Placed(board: Board) | OutOfBounds(board: Board)

  /** `placeShip(ship, x, y, direction)` where `id` names the ship object.
      Any direction other than "horizontal" takes the vertical branch. There
      is no overlap check: earlier occupants are overwritten. The success
      path requires its writes to stay on the grid (out there the JavaScript
      either grows a row or crashes). */
  function PlaceShip(b: Board, id: ShipId, ship: Ship, x: int, y: int, direction: string): (r: Placement)
    requires Valid(b)
    requires id in b.fleet ==> b.fleet[id] == ship
    requires CodedCheckFails(ship.length, x, y, direction) || WritesInBounds(ship.length, x, y, direction == "horizontal")
    ensures Valid(r.board)
    ensures r.board.ships == b.ships + [id]
    ensures r.board.fleet == b.fleet[id := ship]
    ensures r.OutOfBounds? <==> CodedCheckFails(ship.length, x, y, direction)
    ensures r.OutOfBounds? ==> r.board.grid == b.grid
    ensures r.Placed? ==> forall i, j :: 0 <= i < Size && 0 <= j < Size ==>
              r.board.grid[i][j] == if Covers(ship.length, x, y, direction == "horizontal", i, j) then Some(id) else b.grid[i][j]
  {
    var pushed := b.(ships := b.ships + [id], fleet := b.fleet[id := ship]);
    if CodedCheckFails(ship.length, x, y, direction) then OutOfBounds(pushed)
    else Placed(pushed.(grid := Fill(b.grid, id, x, y, direction == "horizontal", ship.length)))
  }

  /** The check a horizontal placement evidently intends: test the axis the
      ship is written along (`y` for horizontal, `x` for vertical). */
  predicate IntendedCheckFails(len: int, x: int, y: int, direction: string) {
    if direction == "horizontal" then y + len > Size else x + len > Size
  }

  /** `placeShip` with the bounds check on the axis the writes go along. For an
      origin on the grid it needs no further precondition: a placement is
      committed exactly when every cell of the ship lies on the grid. */
  function PlaceShipFixed(b: Board, id: ShipId, ship: Ship, x: int, y: int, direction: string): (r: Placement)
    requires Valid(b)
    requires id in b.fleet ==> b.fleet[id] == ship
    requires 0 <= x < Size && 0 <= y < Size
    ensures Valid(r.board)
    ensures r.board.ships == b.ships + [id]
    ensures r.board.fleet == b.fleet[id := ship]
    ensures r.Placed? <==> ship.length <= 0 || WritesInBounds(ship.length, x, y, direction == "horizontal")
    ensures r.OutOfBounds? ==> r.board.grid == b.grid
    ensures r.Placed? ==> forall i, j :: 0 <= i < Size && 0 <= j < Size ==>
              r.board.grid[i][j] == if Covers(ship.length, x, y, direction == "horizontal", i, j) then Some(id) else b.grid[i][j]
  {
    var pushed := b.(ships := b.ships + [id], fleet := b.fleet[id := ship]);
    if IntendedCheckFails(ship.length, x, y, direction) then OutOfBounds(pushed)
    else Placed(pushed.(grid := Fill(b.grid, id, x, y, direction == "horizontal", ship.length)))
  }

  /** The coded check tests the wrong axis: a horizontal ship of length 3 at
      `(9, 0)` fits on the board yet is refused, and one at `(0, 8)` passes the
      check although its last cell `(0, 10)` is off the board. */
  lemma CodedCheckTestsWrongAxis()
    ensures WritesInBounds(3, 9, 0, true) && CodedCheckFails(3, 9, 0, "horizontal")
    ensures !WritesInBounds(3, 0, 8, true) && !CodedCheckFails(3, 0, 8, "horizontal")
    ensures !IntendedCheckFails(3, 9, 0, "horizontal") && IntendedCheckFails(3, 0, 8, "horizontal")
  {
  }

  /** `receiveAttack(x, y)`: a hit bumps the hit count of the ship in the cell
      and answers true; an empty cell answers false. The grid is never
      changed, so attacking the same ship cell again hits the ship again. */
  function ReceiveAttack(b: Board, x: int, y: int): (r: (Board, bool))
    requires Valid(b)
    requires 0 <= x < Size && 0 <= y < Size
    ensures Valid(r.0)
    ensures r.1 <==> b.grid[x][y].Some?
    ensures r.0.grid == b.grid && r.0.ships == b.ships
    ensures r.1 ==> r.0.fleet == b.fleet[b.grid[x][y].value := Hit(b.fleet[b.grid[x][y].value])]
    ensures !r.1 ==> r.0.fleet == b.fleet
  {
    match b.grid[x][y]
    case None => (b, false)
    case Some(id) => (b.(fleet := b.fleet[id := Hit(b.fleet[id])]), true)
  }

  /** `n` attacks on the same cell. */
  function AttackTimes(b: Board, x: int, y: int, n: nat): (r: Board)
    requires Valid(b)
    requires 0 <= x < Size && 0 <= y < Size
    ensures Valid(r) && r.grid == b.grid && r.ships == b.ships
    decreases n
  {
    if n == 0 then b else ReceiveAttack(AttackTimes(b, x, y, n - 1), x, y).0
  }

  /** Repeated attacks on one occupied cell keep adding hits to its ship: a
      ship can be sunk through a single cell. */
  lemma {:induction false} RepeatedAttacksKeepHitting(b: Board, x: int, y: int, n: nat)
    requires Valid(b)
    requires 0 <= x < Size && 0 <= y < Size
    requires b.grid[x][y].Some?
    ensures AttackTimes(b, x, y, n).fleet == b.fleet[b.grid[x][y].value := HitTimes(b.fleet[b.grid[x][y].value], n)]
    decreases n
  {
    if n > 0 {
      RepeatedAttacksKeepHitting(b, x, y, n - 1);
    }
  }

  /** `ships.every(ship => ship.isSunk())` over `ids`: the test stops at the
      first ship that is afloat, and every ship it tested keeps its refreshed
      sunk flag. */
  function EverySunk(fleet: map<ShipId, Ship>, ids: seq<ShipId>): (r: (map<ShipId, Ship>, bool))
    requires forall k :: 0 <= k < |ids| ==> ids[k] in fleet
    ensures r.1 <==> forall k :: 0 <= k < |ids| ==> SunkNow(fleet[ids[k]])
    ensures r.0.Keys == fleet.Keys
    ensures forall id :: id in fleet ==> r.0[id] == fleet[id] || r.0[id] == IsSunk(fleet[id]).0
    ensures forall id :: id in fleet && id !in ids ==> r.0[id] == fleet[id]
    decreases |ids|
  {
    if |ids| == 0 then (fleet, true)
    else
      var t := IsSunk(fleet[ids[0]]);
      var fleet' := fleet[ids[0] := t.0];
      if !t.1 then (fleet', false)
      else
        var rest := EverySunk(fleet', ids[1..]);
        assert forall k :: 1 <= k < |ids| ==> SunkNow(fleet'[ids[k]]) == SunkNow(fleet[ids[k]]);
        rest
  }

  /** `allShipsSunk()`: true exactly when every ship in `ships` reports sunk,
      so an empty fleet counts as defeated. Refreshing the cached flags does
      not change any later answer. */
  function AllShipsSunk(b: Board): (r: (Board, bool))
    requires Valid(b)
    ensures Valid(r.0)
    ensures r.1 <==> forall k :: 0 <= k < |b.ships| ==> SunkNow(b.fleet[b.ships[k]])
    ensures b.ships == [] ==> r.1
    ensures r.0.grid == b.grid && r.0.ships == b.ships && r.0.fleet.Keys == b.fleet.Keys
    ensures forall id :: id in b.fleet ==> SunkNow(r.0.fleet[id]) == SunkNow(b.fleet[id]) && r.0.fleet[id].hits == b.fleet[id].hits
    ensures forall id :: id in b.fleet ==> r.0.fleet[id] == b.fleet[id] || r.0.fleet[id] == IsSunk(b.fleet[id]).0
  {
    var t := EverySunk(b.fleet, b.ships);
    (b.(fleet := t.0), t.1)
  }

  /** Asking twice gives the same answer. */
  lemma AllShipsSunkStable(b: Board)
    requires Valid(b)
    ensures AllShipsSunk(AllShipsSunk(b).0).1 == AllShipsSunk(b).1
  {
  }

  /** A fresh board already counts as defeated. */
  lemma NewBoardIsDefeated()
    ensures AllShipsSunk(NewBoard()).1
  {
  }

  /** A refused placement still appends the ship, so a ship that is not on the
      grid and has taken no hits keeps `allShipsSunk` false from then on:
      no attack can reach it. */
  lemma RefusedPlacementBlocksDefeat(b: Board, id: ShipId, ship: Ship, x: int, y: int, direction: string)
    requires Valid(b)
    requires id !in b.fleet && !OnGrid(b.grid, id)
    requires ship.hits < ship.length && !ship.sunk
    requires CodedCheckFails(ship.length, x, y, direction)
    ensures PlaceShip(b, id, ship, x, y, direction).OutOfBounds?
    ensures !AllShipsSunk(PlaceShip(b, id, ship, x, y, direction).board).1
  {
    var b' := PlaceShip(b, id, ship, x, y, direction).board;
    assert b'.ships[|b'.ships| - 1] == id;
  }

  /** Attacks never reach a ship that is not on the grid. */
  lemma AttackMissesShipOffGrid(b: Board, id: ShipId, x: int, y: int)
    requires Valid(b) && id in b.fleet && !OnGrid(b.grid, id)
    requires 0 <= x < Size && 0 <= y < Size
    ensures id in ReceiveAttack(b, x, y).0.fleet
    ensures ReceiveAttack(b, x, y).0.fleet[id] == b.fleet[id]
  {
    if b.grid[x][y].Some? {
      assert b.grid[x][y] != Some(id);
    }
  }

  /** The scenario of a length-3 ship placed horizontally on row 4 from column
      2: three hits on its cells sink it and defeat the board, and a second
      attack on a struck cell counts as one more hit. */
  lemma ThreeHitsSinkCruiser()
    ensures var p := PlaceShip(NewBoard(), 0, NewShip("Cruiser", 3), 4, 2, "horizontal");
            && p.Placed?
            && var b1 := ReceiveAttack(p.board, 4, 2);
            && var b2 := ReceiveAttack(b1.0, 4, 3);
            && var b3 := ReceiveAttack(b2.0, 4, 4);
            && b1.1 && b2.1 && b3.1
            && AllShipsSunk(b3.0).1
            && !AllShipsSunk(b2.0).1
            && ReceiveAttack(b2.0, 4, 3).1
  {
    var p := PlaceShip(NewBoard(), 0, NewShip("Cruiser", 3), 4, 2, "horizontal");
    assert p.board.grid[4][2] == Some(0);
    assert p.board.grid[4][3] == Some(0);
    assert p.board.grid[4][4] == Some(0);
  }
}

=== FILE: multiplayer.dfy ===
/** The turn flow of the two-human controller. The state is whether the game
    is running, whose turn it is (compared by name) and whether player 2's
    ships are placed. The 1.5-second delay between an attack and the switch
    of turns is taken as part of the same step. */
module Multiplayer {
  import opened Wrappers
  import opened PlayerNames
  import opened Rounds

  datatype Game = Game(started: bool, turn: string, player2ShipsPlaced: bool)

  /** The controller's state when it is created. */
  function Initial(names: Names): (r: Game)
    ensures !r.started && r.turn == names.player1 && !r.player2ShipsPlaced
  {
    Game(false, names.player1, false)
  }

  /** The player whose turn it must be to attack the board of `target`. */
  function Attacker(names: Names, target: Side): (r: string)
    ensures r == NameOf(names, Other(target))
  {
    if target == Player2 then names.player1 else names.player2
  }

  /** The click guards of `handleAttacks`: a click on `target`'s grid counts
      only while the game runs, on the other player's turn, on a cell not yet
      marked. */
  predicate AcceptsAttack(g: Game, names: Names, target: Side, m: Mark) {
    g.started && g.turn == Attacker(names, target) && m == Unmarked
  }

  /** The state after a step, and the name announced as winner, if any. */
  datatype Step = Step(game: Game, winner: Option<string>)

  /** The name `switchTurn` moves the turn to: player 2 if it is player 1's
      turn by name, player 1 otherwise. */
  function Toggle(names: Names, turn: string): (r: string)
    ensures turn == names.player1 ==> r == names.player2
    ensures turn != names.player1 ==> r == names.player1
  {
    if turn == names.player1 then names.player2 else names.player1
  }

  /** `switchTurn`, with `f` the fleets after the attack: a winner stops the
      game and keeps the turn where it is; otherwise the turn toggles. */
  function SwitchTurn(g: Game, names: Names, f: Fleets): (r: Step)
    ensures DetectWinner(f).Some? ==>
              && r.game == g.(started := false)
              && r.winner == Some(NameOf(names, DetectWinner(f).value))
    ensures DetectWinner(f).None? ==> r == Step(g.(turn := Toggle(names, g.turn)), None)
  {
    match DetectWinner(f)
    case Some(w) => Step(g.(started := false), Some(NameOf(names, w)))
    case None => Step(g.(turn := Toggle(names, g.turn)), None)
  }

  /** A click on `target`'s grid: ignored unless accepted, otherwise the
      attack resolves (its effect on the board reaches the model as `f`) and
      the turn switches. */
  function HandleAttack(g: Game, names: Names, target: Side, m: Mark, f: Fleets): (r: Step)
    ensures !AcceptsAttack(g, names, target, m) ==> r == Step(g, None)
    ensures AcceptsAttack(g, names, target, m) ==> r == SwitchTurn(g, names, f)
  {
    if AcceptsAttack(g, names, target, m) then SwitchTurn(g, names, f) else Step(g, None)
  }

  /** The forfeit handler: at any time, the game stops and the player whose
      turn it is not wins. */
  function Forfeit(g: Game, names: Names): (r: Step)
    ensures !r.game.started && r.game.turn == g.turn && r.game.player2ShipsPlaced == g.player2ShipsPlaced
    ensures r.winner == Some(Toggle(names, g.turn))
  {
    Step(g.(started := false), Some(Toggle(names, g.turn)))
  }

  /** `startGame`. */
  function StartGame(g: Game, names: Names): (r: Game)
    ensures r.started && r.turn == names.player1 && r.player2ShipsPlaced == g.player2ShipsPlaced
  {
    g.(started := true, turn := names.player1)
  }

  /** `resetGameState` (the boards' own reset is not part of this model). */
  function ResetGameState(g: Game, names: Names): (r: Game)
    ensures r == Initial(names)
  {
    Game(false, names.player1, false)
  }

  /** The turn always names one of the two players. */
  predicate TurnIsAPlayer(g: Game, names: Names) {
    g.turn == names.player1 || g.turn == names.player2
  }

  /** Two switches with no winner restore the turn, provided the names differ. */
  lemma SwitchTwiceRestores(g: Game, names: Names, f1: Fleets, f2: Fleets)
    requires names.player1 != names.player2 && TurnIsAPlayer(g, names)
    requires DetectWinner(f1).None? && DetectWinner(f2).None?
    ensures SwitchTurn(SwitchTurn(g, names, f1).game, names, f2).game == g
  {
  }

  /** With equal names the toggle does nothing: it stays that name's turn. */
  lemma EqualNamesNeverSwitch(g: Game, names: Names, f: Fleets)
    requires names.player1 == names.player2 && TurnIsAPlayer(g, names)
    ensures SwitchTurn(g, names, f).game.turn == g.turn
  {
  }

  /** With distinct names at most one of the two grids accepts a click; with
      equal names both do. */
  lemma GuardsExclusive(g: Game, names: Names, m1: Mark, m2: Mark)
    ensures names.player1 != names.player2 ==> !(AcceptsAttack(g, names, Player1, m1) && AcceptsAttack(g, names, Player2, m2))
    ensures names.player1 == names.player2 && AcceptsAttack(g, names, Player1, m1) && m2 == Unmarked ==> AcceptsAttack(g, names, Player2, m2)
  {
  }

  /** An accepted attack with no winner passes the right to attack to the
      other player: the attacker's next click is refused, the defender's is
      accepted. */
  lemma TurnsAlternate(g: Game, names: Names, target: Side, m: Mark, f: Fleets)
    requires names.player1 != names.player2
    requires AcceptsAttack(g, names, target, m) && DetectWinner(f).None?
    ensures var r := HandleAttack(g, names, target, m, f);
            && r.winner.None?
            && !AcceptsAttack(r.game, names, target, Unmarked)
            && AcceptsAttack(r.game, names, Other(target), Unmarked)
  {
  }

  /** Once a winner is declared, or the game is forfeited, every click on
      either grid is refused. */
  lemma NoAttackAfterGameOver(g: Game, names: Names, target: Side, m: Mark, f: Fleets, t2: Side, m2: Mark)
    ensures HandleAttack(g, names, target, m, f).winner.Some? ==>
              !AcceptsAttack(HandleAttack(g, names, target, m, f).game, names, t2, m2)
    ensures !AcceptsAttack(Forfeit(g, names).game, names, t2, m2)
  {
  }

  /** With distinct names the forfeit winner is never the player whose turn
      it is. */
  lemma ForfeitWinnerIsOpponent(g: Game, names: Names)
    requires names.player1 != names.player2 && TurnIsAPlayer(g, names)
    ensures Forfeit(g, names).winner.value != g.turn
    ensures Forfeit(g, names).winner.value == names.player1 || Forfeit(g, names).winner.value == names.player2
  {
  }

  /** Every step keeps the turn on one of the two players. */
  lemma StepsKeepTurnOnAPlayer(g: Game, names: Names, target: Side, m: Mark, f: Fleets)
    requires TurnIsAPlayer(g, names)
    ensures TurnIsAPlayer(HandleAttack(g, names, target, m, f).game, names)
    ensures TurnIsAPlayer(Forfeit(g, names).game, names)
    ensures TurnIsAPlayer(StartGame(g, names), names) && TurnIsAPlayer(ResetGameState(g, names), names)
  {
  }
}

=== FILE: player_names.dfy ===
/** Player names: `capitalizeFirstLetter`, the `trim()` applied to the name
    inputs, and the rule by which the name form replaces the default names.
    Case mapping is ASCII only: letters `a`..`z` and `A`..`Z` change case and
    every other character is left alone. */
module PlayerNames {
  import opened Wrappers

  /** The two names a game is played under. */
  datatype Names = Names(player1: string, player2: string)

  const DefaultPlayer1: string := "Player 1"
  const DefaultPlayer2: string := "Computer"

  /** The names before the form is submitted. */
  function DefaultNames(): (r: Names)
    ensures r.player1 == DefaultPlayer1 && r.player2 == DefaultPlayer2
    ensures r.player1 != r.player2
  {
    Names(DefaultPlayer1, DefaultPlayer2)
  }

  predicate IsLowerAscii(c: char) {
    'a' <= c <= 'z'
  }

  predicate IsUpperAscii(c: char) {
    'A' <= c <= 'Z'
  }

  function ToUpper(c: char): (r: char)
    ensures IsLowerAscii(c) ==> IsUpperAscii(r) && r as int == c as int - 32
    ensures !IsLowerAscii(c) ==> r == c
    ensures !IsLowerAscii(r)
  {
    if IsLowerAscii(c) then (c as int - 32) as char else c
  }

  function ToLower(c: char): (r: char)
    ensures IsUpperAscii(c) ==> IsLowerAscii(r) && r as int == c as int + 32
    ensures !IsUpperAscii(c) ==> r == c
    ensures !IsUpperAscii(r)
  {
    if IsUpperAscii(c) then (c as int + 32) as char else c
  }

  /** Upper- and lower-casing agree on which character they case: mapping
      one way then the other gives the plain other mapping. */
  lemma CaseRoundTrip(c: char)
    ensures ToLower(ToUpper(c)) == ToLower(c)
    ensures ToUpper(ToLower(c)) == ToUpper(c)
    ensures ToUpper(ToUpper(c)) == ToUpper(c) && ToLower(ToLower(c)) == ToLower(c)
  {
  }

  /** `s.toLowerCase()`. */
  function LowerAll(s: string): (r: string)
    ensures |r| == |s|
    ensures forall i :: 0 <= i < |s| ==> r[i] == ToLower(s[i])
    decreases |s|
  {
    if |s| == 0 then "" else [ToLower(s[0])] + LowerAll(s[1..])
  }

  /** `capitalizeFirstLetter`: the first character upper-cased, the rest
      lower-cased; the empty string stays empty. */
  function Capitalize(s: string): (r: string)
    ensures |r| == |s|
    ensures s == "" ==> r == ""
    ensures |s| > 0 ==> r[0] == ToUpper(s[0])
    ensures forall i :: 1 <= i < |s| ==> r[i] == ToLower(s[i])
  {
    if |s| == 0 then "" else [ToUpper(s[0])] + LowerAll(s[1..])
  }

  /** Capitalising twice is capitalising once. */
  lemma CapitalizeIdempotent(s: string)
    ensures Capitalize(Capitalize(s)) == Capitalize(s)
  {
    var c := Capitalize(s);
    var cc := Capitalize(c);
    forall i | 0 <= i < |s|
      ensures cc[i] == c[i]
    {
      CaseRoundTrip(s[i]);
    }
  }

  /** The characters `String.prototype.trim` removes: white space and line
      terminators. */
  predicate IsSpace(c: char) {
    var n := c as int;
    n == 0x09 || n == 0x0A || n == 0x0B || n == 0x0C || n == 0x0D || n == 0x20
    || n == 0xA0 || n == 0x1680 || (0x2000 <= n <= 0x200A) || n == 0x2028 || n == 0x2029
    || n == 0x202F || n == 0x205F || n == 0x3000 || n == 0xFEFF
  }

  /** Every character of `s` from `lo` up to (not including) `hi` is space. */
  predicate SpaceBetween(s: string, lo: int, hi: int)
    requires 0 <= lo && hi <= |s|
  {
    forall k :: lo <= k < hi ==> IsSpace(s[k])
  }

  predicate AllSpace(s: string) {
    SpaceBetween(s, 0, |s|)
  }

  /** Neither end of the string is a space character. */
  predicate Trimmed(s: string) {
    |s| > 0 ==> !IsSpace(s[0]) && !IsSpace(s[|s| - 1])
  }

  /** The scan for the first non-space character at or after `i`. */
  function StartOf(s: string, i: nat): (r: nat)
    requires i <= |s|
    ensures i <= r <= |s|
    ensures SpaceBetween(s, i, r)
    ensures r < |s| ==> !IsSpace(s[r])
    decreases |s| - i
  {
    if i < |s| && IsSpace(s[i]) then StartOf(s, i + 1) else i
  }

  /** The scan back from `j` for the end of the last non-space character
      after `lo`. */
  function EndOf(s: string, lo: nat, j: nat): (r: nat)
    requires lo <= j <= |s|
    ensures lo <= r <= j
    ensures SpaceBetween(s, r, j)
    ensures r > lo ==> !IsSpace(s[r - 1])
    decreases j
  {
    if j > lo && IsSpace(s[j - 1]) then EndOf(s, lo, j - 1) else j
  }

  /** `s.trim()`: the piece of `s` between its leading and its trailing space
      characters; it is empty exactly when `s` is all space. */
  function Trim(s: string): (r: string)
    ensures Trimmed(r)
    ensures r == "" <==> AllSpace(s)
    ensures var i := StartOf(s, 0);
            && i + |r| <= |s| && r == s[i..i + |r|]
            && SpaceBetween(s, 0, i) && SpaceBetween(s, i + |r|, |s|)
  {
    var i := StartOf(s, 0);
    var j := EndOf(s, i, |s|);
    assert i < j ==> !IsSpace(s[i]);
    s[i..j]
  }

  /** A trimmed string is its own trim. */
  lemma TrimOfTrimmed(s: string)
    requires Trimmed(s)
    ensures Trim(s) == s
  {
    assert StartOf(s, 0) == 0;
    assert EndOf(s, 0, |s|) == |s|;
  }

  /** Trimming a trimmed string changes nothing. */
  lemma TrimIdempotent(s: string)
    ensures Trim(Trim(s)) == Trim(s)
  {
    TrimOfTrimmed(Trim(s));
  }

  /** The name a non-blank input yields, if any. */
  function Entered(input: Option<string>): (r: Option<string>)
    ensures r.Some? <==> input.Some? && !AllSpace(input.value)
    ensures r.Some? ==> r.value == Capitalize(Trim(input.value))
  {
    if input.Some? && Trim(input.value) != "" then Some(Capitalize(Trim(input.value))) else None
  }

  /** The submit handler of the name form: player 1's name is replaced by the
      capitalised trimmed input when that is non-blank; player 2's name only
      in multiplayer mode. A missing input field counts as blank. */
  function SubmitNames(names: Names, multiplayer: bool, input1: Option<string>, input2: Option<string>): (r: Names)
    ensures r.player1 == names.player1 <== input1.None? || AllSpace(input1.value)
    ensures input1.Some? && !AllSpace(input1.value) ==> r.player1 == Capitalize(Trim(input1.value))
    ensures r.player2 == names.player2 <== !multiplayer || input2.None? || AllSpace(input2.value)
    ensures multiplayer && input2.Some? && !AllSpace(input2.value) ==> r.player2 == Capitalize(Trim(input2.value))
  {
    Names(Entered(input1).GetOr(names.player1),
          if multiplayer then Entered(input2).GetOr(names.player2) else names.player2)
  }

  /** Case mapping never turns a space character into a visible one or back. */
  lemma CaseKeepsSpaces(c: char)
    ensures IsSpace(ToUpper(c)) == IsSpace(c) && IsSpace(ToLower(c)) == IsSpace(c)
  {
  }

  /** A name that is non-empty and has no space at either end. */
  predicate CleanName(s: string) {
    s != "" && Trimmed(s)
  }

  /** Capitalising a trimmed string keeps it trimmed. */
  lemma CapitalizeKeepsTrimmed(s: string)
    requires Trimmed(s)
    ensures Trimmed(Capitalize(s))
  {
    if |s| > 0 {
      CaseKeepsSpaces(s[0]);
      CaseKeepsSpaces(s[|s| - 1]);
    }
  }

  /** Submitting the form never produces a blank name or one with spaces at
      its ends, starting from the defaults or any clean names. */
  lemma SubmittedNamesAreClean(names: Names, multiplayer: bool, input1: Option<string>, input2: Option<string>)
    requires CleanName(names.player1) && CleanName(names.player2)
    ensures CleanName(SubmitNames(names, multiplayer, input1, input2).player1)
    ensures CleanName(SubmitNames(names, multiplayer, input1, input2).player2)
  {
    if input1.Some? && !AllSpace(input1.value) {
      CapitalizeKeepsTrimmed(Trim(input1.value));
    }
    if multiplayer && input2.Some? && !AllSpace(input2.value) {
      CapitalizeKeepsTrimmed(Trim(input2.value));
    }
  }

  /** The default names are clean. */
  lemma DefaultNamesAreClean()
    ensures CleanName(DefaultNames().player1) && CleanName(DefaultNames().player2)
  {
  }
}

=== FILE: rounds.dfy ===
/** What the single-player and multiplayer controllers share: the boards
    enter them only through `allShipsSunk`, the attacked grid cell only
    through its hit/miss marker, and both decide the winner the same way. */
module Rounds {
  import opened Wrappers
  import opened PlayerNames

  datatype Side = Player1 | Player2

  /** The answers of `allShipsSunk()` on player 1's and player 2's boards at
      the moment the winner is checked. */
  datatype Fleets = Fleets(player1Sunk: bool, player2Sunk: bool)

  /** The marker a clicked grid cell carries. */
  datatype Mark = Unmarked | MarkedHit | MarkedMiss

  function Other(s: Side): (r: Side)
    ensures r != s
  {
    if s == Player1 then Player2 else Player1
  }

  /** `detectWinner`: player 1's fleet is checked first, so when both fleets
      are sunk player 2 wins. */
  function DetectWinner(f: Fleets): (r: Option<Side>)
    ensures r == None <==> !f.player1Sunk && !f.player2Sunk
    ensures r == Some(Player2) <==> f.player1Sunk
    ensures r == Some(Player1) <==> !f.player1Sunk && f.player2Sunk
  {
    if f.player1Sunk then Some(Player2)
    else if f.player2Sunk then Some(Player1)
    else None
  }

  /** The name under which a side plays. */
  function NameOf(names: Names, s: Side): (r: string)
    ensures s == Player1 ==> r == names.player1
    ensures s == Player2 ==> r == names.player2
  {
    match s
    case Player1 => names.player1
    case Player2 => names.player2
  }
}

=== FILE: single_player.dfy ===
/** The turn flow of the single-player controller: the human is player 1,
    the computer player 2. The state is whether the game is running and
    whose turn it is, by name. The one-second delay before the computer moves
    is taken as part of the same step. */
module SinglePlayer {
  import opened Wrappers
  import opened PlayerNames
  import opened Rounds

  datatype Game = Game(started: bool, turn: string)

  /** The controller's state when it is created. */
  function Initial(names: Names): (r: Game)
    ensures !r.started && r.turn == names.player1
  {
    Game(false, names.player1)
  }

  /** The guard on a click on the computer's grid in `handlePlayerAttack`. */
  predicate AcceptsAttack(g: Game, names: Names, m: Mark) {
    g.started && g.turn == names.player1 && m == Unmarked
  }

  /** The state after a step, and the name announced as winner, if any. */
  datatype Round = Round(game: Game, winner: Option<string>, computerMoved: bool)

  /** `displayWinner`: the game stops and the winner is announced. */
  function DeclareWinner(g: Game, names: Names, w: Side, computerMoved: bool): (r: Round)
    ensures !r.game.started && r.game.turn == g.turn
    ensures r.winner == Some(NameOf(names, w)) && r.computerMoved == computerMoved
  {
    Round(g.(started := false), Some(NameOf(names, w)), computerMoved)
  }

  /** `playRound`, after the player's attack has resolved (`afterPlayer`) and,
      if the computer gets to move, after its attack (`afterComputer`). A
      winner after the player's attack keeps the turn where it is; otherwise
      the turn goes to the computer and comes back only if the computer's move
      did not end the game. */
  function PlayRound(g: Game, names: Names, afterPlayer: Fleets, afterComputer: Fleets): (r: Round)
    ensures DetectWinner(afterPlayer).Some? ==>
              && !r.computerMoved && r.game.turn == g.turn && !r.game.started
              && r.winner == Some(NameOf(names, DetectWinner(afterPlayer).value))
    ensures DetectWinner(afterPlayer).None? ==> (r.computerMoved <==> g.started)
    ensures DetectWinner(afterPlayer).None? && !g.started ==> r == Round(g.(turn := names.player2), None, false)
    ensures DetectWinner(afterPlayer).None? && g.started ==>
              && r.game.turn == (if DetectWinner(afterComputer).None? then names.player1 else names.player2)
              && r.winner == (if DetectWinner(afterComputer).None? then None else Some(NameOf(names, DetectWinner(afterComputer).value)))
    ensures r.game.started <==> g.started && r.winner.None?
  {
    match DetectWinner(afterPlayer)
    case Some(w) => DeclareWinner(g, names, w, false)
    case None =>
      var handed := g.(turn := names.player2);
      if !handed.started then Round(handed, None, false)
      else match DetectWinner(afterComputer)
        case Some(w) => DeclareWinner(handed, names, w, true)
        case None => Round(handed.(turn := names.player1), None, true)
  }

  /** A click on a cell of the computer's grid: ignored unless the guard
      accepts it, otherwise the round is played. */
  function HandlePlayerAttack(g: Game, names: Names, m: Mark, afterPlayer: Fleets, afterComputer: Fleets): (r: Round)
    ensures !AcceptsAttack(g, names, m) ==> r == Round(g, None, false)
    ensures AcceptsAttack(g, names, m) ==> r == PlayRound(g, names, afterPlayer, afterComputer)
  {
    if AcceptsAttack(g, names, m) then PlayRound(g, names, afterPlayer, afterComputer)
    else Round(g, None, false)
  }

  /** The forfeit button: only on the human's turn (started or not), and the
      computer always wins. */
  function Forfeit(g: Game, names: Names): (r: Round)
    ensures g.turn != names.player1 ==> r == Round(g, None, false)
    ensures g.turn == names.player1 ==> !r.game.started && r.game.turn == g.turn && r.winner == Some(names.player2)
  {
    if g.turn != names.player1 then Round(g, None, false)
    else Round(g.(started := false), Some(names.player2), false)
  }

  /** `startGame`. */
  function StartGame(g: Game, names: Names): (r: Game)
    ensures r.started && r.turn == names.player1
  {
    Game(true, names.player1)
  }

  /** `resetGameState` (the boards' own reset is not part of this model). */
  function Restart(g: Game, names: Names): (r: Game)
    ensures r == Initial(names)
  {
    Game(false, names.player1)
  }

  /** The turn always names one of the two players. */
  predicate TurnIsAPlayer(g: Game, names: Names) {
    g.turn == names.player1 || g.turn == names.player2
  }

  /** Every step keeps the turn on one of the two players. */
  lemma StepsKeepTurnOnAPlayer(g: Game, names: Names, m: Mark, afterPlayer: Fleets, afterComputer: Fleets)
    requires TurnIsAPlayer(g, names)
    ensures TurnIsAPlayer(HandlePlayerAttack(g, names, m, afterPlayer, afterComputer).game, names)
    ensures TurnIsAPlayer(Forfeit(g, names).game, names)
    ensures TurnIsAPlayer(StartGame(g, names), names) && TurnIsAPlayer(Restart(g, names), names)
  {
  }

  /** Once a winner is announced no further click is accepted until the game
      is started again. */
  lemma NoAttackAfterWinner(g: Game, names: Names, m: Mark, afterPlayer: Fleets, afterComputer: Fleets, m2: Mark)
    requires HandlePlayerAttack(g, names, m, afterPlayer, afterComputer).winner.Some?
    ensures !AcceptsAttack(HandlePlayerAttack(g, names, m, afterPlayer, afterComputer).game, names, m2)
  {
  }

  /** An accepted click with no winner on either side hands the turn back to
      the human, ready for the next click on an unmarked cell. */
  lemma QuietRoundReturnsTurn(g: Game, names: Names, m: Mark, afterPlayer: Fleets, afterComputer: Fleets)
    requires AcceptsAttack(g, names, m)
    requires DetectWinner(afterPlayer).None? && DetectWinner(afterComputer).None?
    ensures var r := HandlePlayerAttack(g, names, m, afterPlayer, afterComputer);
            r.computerMoved && r.winner.None? && AcceptsAttack(r.game, names, Unmarked)
  {
  }
}

=== FILE: targeting.dfy ===
/** The computer opponent's hunt/target strategy (`createEnemyAI`).

    The agent sees the opponent's board as a grid of cells that are either
    already resolved (marked hit or miss) or still open; an open cell also
    carries what attacking it would report, so the board's answer to an attack
    is `AlreadyAttacked` exactly on resolved cells. The random draws of the
    hunt phase are an explicit sequence of candidate cells, and the retry
    after an `AlreadyAttacked` answer is bounded by fuel. */
module Targeting {
  import opened Wrappers

  /** The board size. The view is abstract, not a `Game.Board`, so the
      module keeps its own copy of the constant. */
  const Size: int := 10
  /** Draws that prefer cells of even parity. */
  const ParityDraws: int := 50
  /** Hard cap on draws in one hunt. */
  const MaxDraws: int := 100

  datatype Coord = Coord(x: int, y: int)

  /** What an attack on an open cell reports: a hit, and whether that hit
      sank its ship, or a miss. */
  datatype Shot = Struck(sinks: bool) | Splash

  datatype Cell = Open(shot: Shot) | HitMark | MissMark

  /** The board's answer to an attack. */
  datatype Outcome = Hit(sunk: bool) | Miss | AlreadyAttacked

  type View = seq<seq<Cell>>

  predicate ValidView(v: View) {
    |v| == Size && forall i :: 0 <= i < Size ==> |v[i]| == Size
  }

  predicate InBounds(c: Coord) {
    0 <= c.x < Size && 0 <= c.y < Size
  }

  predicate AllInBounds(cs: seq<Coord>) {
    forall k :: 0 <= k < |cs| ==> InBounds(cs[k])
  }

  /** The cell is marked hit or miss. */
  predicate Resolved(v: View, c: Coord)
    requires ValidView(v) && InBounds(c)
  {
    !v[c.x][c.y].Open?
  }

  /** The board's answer to an attack on `c`. */
  function Attack(v: View, c: Coord): (r: Outcome)
    requires ValidView(v) && InBounds(c)
    ensures r == AlreadyAttacked <==> Resolved(v, c)
    ensures r == Miss <==> v[c.x][c.y] == Open(Splash)
    ensures r.Hit? <==> v[c.x][c.y].Open? && v[c.x][c.y].shot.Struck?
  {
    match v[c.x][c.y]
    case Open(Struck(s)) => Hit(s)
    case Open(Splash) => Miss
    case _ => AlreadyAttacked
  }

  // ---------------------------------------------------------------------
  // Hunt phase

  /** The `do ... while` condition after the `n`-th draw `c`: draw again while
      the cell is resolved, or while it has odd parity during the first 49
      draws, as long as fewer than 100 draws were made. */
  predicate DrawAgain(v: View, c: Coord, n: int)
    requires ValidView(v) && InBounds(c)
  {
    (Resolved(v, c) || (n < ParityDraws && (c.x + c.y) % 2 != 0)) && n < MaxDraws
  }

  /** The cell the hunt settles on and the number of draws it took. */
  datatype Draw = Draw(cell: Coord, used: nat)

  /** The hunt loop after `drawn` draws, fed the remaining candidates. `None`
      when the candidates run out before the loop stops. */
  function HuntFrom(v: View, draws: seq<Coord>, drawn: nat): (r: Option<Draw>)
    requires ValidView(v) && AllInBounds(draws)
    requires drawn < MaxDraws
    ensures r.Some? ==> && drawn < r.value.used <= MaxDraws
                        && r.value.used - drawn <= |draws|
                        && r.value.cell == draws[r.value.used - drawn - 1]
                        && !DrawAgain(v, r.value.cell, r.value.used)
                        && forall k :: 0 <= k < r.value.used - drawn - 1 ==> DrawAgain(v, draws[k], drawn + k + 1)
    ensures r.None? ==> forall k :: 0 <= k < |draws| ==> DrawAgain(v, draws[k], drawn + k + 1)
    decreases |draws|
  {
    if |draws| == 0 then None
    else if DrawAgain(v, draws[0], drawn + 1) then
      var r := HuntFrom(v, draws[1..], drawn + 1);
      assert forall k :: 1 <= k < |draws| ==> draws[1..][k - 1] == draws[k];
      r
    else Some(Draw(draws[0], drawn + 1))
  }

  /** The hunt loop: the chosen cell is the first candidate the loop accepts.
      It uses at most 100 draws; stopping before the 100th means the cell is
      open, and stopping before the 50th means it also has even parity. */
  function Hunt(v: View, draws: seq<Coord>): (r: Option<Draw>)
    requires ValidView(v) && AllInBounds(draws)
    ensures r.Some? ==> && 1 <= r.value.used <= MaxDraws
                        && r.value.used <= |draws|
                        && r.value.cell == draws[r.value.used - 1]
                        && (r.value.used < MaxDraws ==> !Resolved(v, r.value.cell))
                        && (r.value.used < ParityDraws ==> (r.value.cell.x + r.value.cell.y) % 2 == 0)
                        && forall k :: 0 <= k < r.value.used - 1 ==> DrawAgain(v, draws[k], k + 1)
    ensures r.None? ==> |draws| < MaxDraws
  {
    var r := HuntFrom(v, draws, 0);
    assert |draws| >= MaxDraws ==> !DrawAgain(v, draws[MaxDraws - 1], MaxDraws);
    r
  }

  /** A hunt comes back empty only when every candidate was rejected. */
  lemma HuntFailsOnlyIfAllRejected(v: View, draws: seq<Coord>)
    requires ValidView(v) && AllInBounds(draws)
    ensures Hunt(v, draws).None? ==> forall k :: 0 <= k < |draws| ==> DrawAgain(v, draws[k], k + 1)
  {
  }

  // ---------------------------------------------------------------------
  // Target phase

  /** The four orthogonal neighbours in the order `makeSmartAttack` lists them. */
  function Around(c: Coord): seq<Coord> {
    [Coord(c.x - 1, c.y), Coord(c.x + 1, c.y), Coord(c.x, c.y - 1), Coord(c.x, c.y + 1)]
  }

  predicate Adjacent(a: Coord, b: Coord) {
    b in Around(a)
  }

  /** A neighbour worth queueing: on the board and not yet resolved. */
  predicate Worth(v: View, c: Coord)
    requires ValidView(v)
  {
    InBounds(c) && !Resolved(v, c)
  }

  /** `r` can be obtained from `cs` by deleting elements: the relative order
      of what is kept is unchanged. */
  predicate Subsequence(r: seq<Coord>, cs: seq<Coord>)
    decreases |cs|
  {
    if |r| == 0 then true
    else if |cs| == 0 then false
    else if r[0] == cs[0] then Subsequence(r[1..], cs[1..])
    else Subsequence(r, cs[1..])
  }

  /** `cs.filter(...)` keeping the cells worth queueing, in order. */
  function KeepWorth(v: View, cs: seq<Coord>): (r: seq<Coord>)
    requires ValidView(v)
    ensures forall c :: c in r <==> c in cs && Worth(v, c)
    ensures forall k :: 0 <= k < |r| ==> Worth(v, r[k])
    ensures Subsequence(r, cs)
    ensures (forall k :: 0 <= k < |cs| ==> Worth(v, cs[k])) ==> r == cs
    ensures |r| <= |cs|
    decreases |cs|
  {
    if |cs| == 0 then []
    else if Worth(v, cs[0]) then [cs[0]] + KeepWorth(v, cs[1..])
    else KeepWorth(v, cs[1..])
  }

  /** The filter keeps every copy of a cell worth queueing and no copy of
      any other cell. */
  lemma {:induction false} KeepWorthCounts(v: View, cs: seq<Coord>)
    requires ValidView(v)
    ensures forall c :: multiset(KeepWorth(v, cs))[c] == if Worth(v, c) then multiset(cs)[c] else 0
    decreases |cs|
  {
    if |cs| > 0 {
      KeepWorthCounts(v, cs[1..]);
      assert cs == [cs[0]] + cs[1..];
    }
  }

  /** The cells queued after a hit at `c` on a ship that is still afloat. */
  function NewTargets(v: View, c: Coord): (r: seq<Coord>)
    requires ValidView(v)
    ensures |r| <= 4 && Subsequence(r, Around(c))
    ensures forall k :: 0 <= k < |r| ==> InBounds(r[k]) && Adjacent(c, r[k]) && !Resolved(v, r[k])
    ensures (forall k :: 0 <= k < 4 ==> Worth(v, Around(c)[k])) ==> r == Around(c)
  {
    KeepWorth(v, Around(c))
  }

  /** In a corner only the two neighbours on the board are queued, in the
      order down then right. */
  lemma CornerQueuesTwo(v: View)
    requires ValidView(v)
    requires !Resolved(v, Coord(1, 0)) && !Resolved(v, Coord(0, 1))
    ensures NewTargets(v, Coord(0, 0)) == [Coord(1, 0), Coord(0, 1)]
  {
    var a := Around(Coord(0, 0));
    assert !InBounds(a[0]) && !InBounds(a[2]);
  }

  /** Adjacency is symmetric, and it is exactly Manhattan distance one. */
  lemma AdjacentMeansDistanceOne(a: Coord, b: Coord)
    ensures Adjacent(a, b) <==> Adjacent(b, a)
    ensures Adjacent(a, b) <==> ((a.x == b.x && (a.y - b.y == 1 || b.y - a.y == 1))
                                 || (a.y == b.y && (a.x - b.x == 1 || b.x - a.x == 1)))
  {
  }

  /** Every open neighbour on the board is queued, and nothing else is. */
  lemma NewTargetsComplete(v: View, c: Coord, n: Coord)
    requires ValidView(v)
    ensures n in NewTargets(v, c) <==> Adjacent(c, n) && InBounds(n) && !Resolved(v, n)
  {
  }

  // ---------------------------------------------------------------------
  // One computer turn

  /** Where the next attack goes: the front of the queue if there is one,
      otherwise a hunted cell. Also returns the queue and the candidates left. */
  datatype Pick = Pick(cell: Coord, queue: seq<Coord>, draws: seq<Coord>)

  function Choose(v: View, queue: seq<Coord>, draws: seq<Coord>): (r: Option<Pick>)
    requires ValidView(v) && AllInBounds(queue) && AllInBounds(draws)
    ensures |queue| > 0 ==> r == Some(Pick(queue[0], queue[1..], draws))
    ensures |queue| == 0 && r.Some? ==> && r.value.queue == []
                                         && Hunt(v, draws).Some?
                                         && r.value.cell == Hunt(v, draws).value.cell
                                         && r.value.draws == draws[Hunt(v, draws).value.used..]
    ensures |queue| == 0 && r.None? ==> |draws| < MaxDraws
    ensures r.Some? ==> InBounds(r.value.cell) && AllInBounds(r.value.queue) && AllInBounds(r.value.draws)
  {
    if |queue| > 0 then Some(Pick(queue[0], queue[1..], draws))
    else match Hunt(v, draws)
      case None => None
      case Some(d) => Some(Pick(d.cell, queue, draws[d.used..]))
  }

  /** With an empty queue there is a target exactly when the hunt finds one. */
  lemma ChooseFailsOnlyIfHuntFails(v: View, draws: seq<Coord>)
    requires ValidView(v) && AllInBounds(draws)
    ensures Choose(v, [], draws).Some? <==> Hunt(v, draws).Some?
  {
  }

  /** The queue after an attack on `c` that resolved with `o`: a hit on a ship
      still afloat pushes the open neighbours onto the front, a sinking hit
      clears the queue, a miss leaves it alone. */
  function Requeue(v: View, c: Coord, o: Outcome, queue: seq<Coord>): (r: seq<Coord>)
    requires ValidView(v)
    ensures o == Hit(false) ==> r == NewTargets(v, c) + queue
    ensures o == Hit(true) ==> r == []
    ensures o == Miss ==> r == queue
    ensures forall q :: q in r ==> q in queue || (o == Hit(false) && Adjacent(c, q) && Worth(v, q))
  {
    match o
    case Hit(sunk) => if sunk then [] else NewTargets(v, c) + queue
    case _ => queue
  }

  /** The result of one turn: the cell that was resolved, its outcome, the
      new queue and the unused candidates; or `Stalled` when the candidates or
      the retry fuel ran out. */
  datatype Turn = Fired(cell: Coord, outcome: Outcome, queue: seq<Coord>, draws: seq<Coord>) | Stalled

  /** The body of `makeSmartAttack`, the retry after `AlreadyAttacked`
      written as recursion on the fuel. */
  function Run(v: View, queue: seq<Coord>, draws: seq<Coord>, fuel: nat): Turn
    requires ValidView(v) && AllInBounds(queue) && AllInBounds(draws)
    decreases fuel
  {
    if fuel == 0 then Stalled
    else match Choose(v, queue, draws)
      case None => Stalled
      case Some(p) =>
        var o := Attack(v, p.cell);
        if o == AlreadyAttacked then Run(v, p.queue, p.draws, fuel - 1)
        else Fired(p.cell, o, Requeue(v, p.cell, o, p.queue), p.draws)
  }

  /** What one turn of the agent promises, for the turn `r` taken with the
      queue `queue`, the candidates `draws` and `fuel` retries:
      - a completed turn attacked exactly one open cell on the board, and
        used up a prefix of the candidates;
      - a sinking hit clears the queue, a hit on a ship still afloat puts
        the open neighbours of the cell at its front, and nothing else joins;
      - an open cell at the front of the queue is the one attacked;
      - with an empty queue the attacked cell is the one the hunt settles
        on, and a hunt that finds nothing stalls the turn. */
  predicate TurnKept(v: View, queue: seq<Coord>, draws: seq<Coord>, fuel: nat, r: Turn)
    requires ValidView(v) && AllInBounds(queue) && AllInBounds(draws)
  {
    && (r.Fired? ==>
          && InBounds(r.cell)
          && !Resolved(v, r.cell)
          && r.outcome != AlreadyAttacked
          && r.outcome == Attack(v, r.cell)
          && AllInBounds(r.queue)
          && |r.draws| <= |draws| && r.draws == draws[|draws| - |r.draws|..])
    && (r.Fired? && r.outcome == Hit(true) ==> r.queue == [])
    && (r.Fired? && r.outcome == Hit(false) ==>
          |NewTargets(v, r.cell)| <= |r.queue| && r.queue[..|NewTargets(v, r.cell)|] == NewTargets(v, r.cell))
    && (r.Fired? ==>
          forall q :: q in r.queue ==> q in queue || (r.outcome == Hit(false) && Adjacent(r.cell, q) && Worth(v, q)))
    && (|queue| > 0 && Worth(v, queue[0]) && fuel > 0 ==>
          r == Fired(queue[0], Attack(v, queue[0]), Requeue(v, queue[0], Attack(v, queue[0]), queue[1..]), draws))
    && (|queue| == 0 && fuel > 0 && Hunt(v, draws).None? ==> r == Stalled)
    && (|queue| == 0 && fuel > 0 && Hunt(v, draws).Some? && !Resolved(v, Hunt(v, draws).value.cell) ==>
          var d := Hunt(v, draws).value;
          r == Fired(d.cell, Attack(v, d.cell), Requeue(v, d.cell, Attack(v, d.cell), []), draws[d.used..]))
  }

  /** What one turn guarantees, by induction on the retries. */
  lemma {:induction false} RunFacts(v: View, queue: seq<Coord>, draws: seq<Coord>, fuel: nat, r: Turn)
    requires ValidView(v) && AllInBounds(queue) && AllInBounds(draws)
    requires r == Run(v, queue, draws, fuel)
    ensures TurnKept(v, queue, draws, fuel, r)
    decreases fuel
  {
    if fuel > 0 {
      match Choose(v, queue, draws)
      case None =>
      case Some(p) =>
        if Attack(v, p.cell) == AlreadyAttacked {
          assert |p.draws| <= |draws| && p.draws == draws[|draws| - |p.draws|..];
          RunFacts(v, p.queue, p.draws, fuel - 1, r);
          assert r.Fired? ==> r.draws == draws[|draws| - |r.draws|..];
        }
    }
  }

  /** `makeSmartAttack`. An `AlreadyAttacked` answer starts the turn over, with
      the front of the queue or the draws already consumed. */
  function SmartAttack(v: View, queue: seq<Coord>, draws: seq<Coord>, fuel: nat): (r: Turn)
    requires ValidView(v) && AllInBounds(queue) && AllInBounds(draws)
    ensures TurnKept(v, queue, draws, fuel, r)
  {
    RunFacts(v, queue, draws, fuel, Run(v, queue, draws, fuel));
    Run(v, queue, draws, fuel)
  }

  /** Resolved cells at the front of the queue are shifted off one retry at
      a time, with the same candidates: the turn goes on as if they had
      never been queued. */
  lemma {:induction false} SkipResolvedPrefix(v: View, queue: seq<Coord>, draws: seq<Coord>, fuel: nat, i: nat)
    requires ValidView(v) && AllInBounds(queue) && AllInBounds(draws)
    requires i <= |queue| && i <= fuel
    requires forall j :: 0 <= j < i ==> Resolved(v, queue[j])
    ensures Run(v, queue, draws, fuel) == Run(v, queue[i..], draws, fuel - i)
    decreases i
  {
    if i == 0 {
      assert queue[i..] == queue;
    } else {
      var rest := queue[1..];
      assert Choose(v, queue, draws) == Some(Pick(queue[0], rest, draws));
      assert rest[i - 1..] == queue[i..];
      assert forall j :: 0 <= j < i - 1 ==> rest[j] == queue[j + 1];
      SkipResolvedPrefix(v, rest, draws, fuel - 1, i - 1);
    }
  }

  /** A hunt that ran into its 100-draw cap on a cell already marked gets
      `already_attacked` back, and the turn starts over with the draws it used
      consumed. */
  lemma HuntCapRetry(v: View, draws: seq<Coord>, fuel: nat)
    requires ValidView(v) && AllInBounds(draws)
    requires fuel > 0 && Hunt(v, draws).Some? && Resolved(v, Hunt(v, draws).value.cell)
    ensures Hunt(v, draws).value.used == MaxDraws
    ensures SmartAttack(v, [], draws, fuel) == SmartAttack(v, [], draws[Hunt(v, draws).value.used..], fuel - 1)
  {
  }

  /** The turn attacks the first open cell in the queue and keeps the cells
      behind it. */
  lemma FirstOpenQueued(v: View, queue: seq<Coord>, draws: seq<Coord>, fuel: nat, i: nat)
    requires ValidView(v) && AllInBounds(queue) && AllInBounds(draws)
    requires i < |queue| && i < fuel
    requires forall j :: 0 <= j < i ==> Resolved(v, queue[j])
    requires Worth(v, queue[i])
    ensures SmartAttack(v, queue, draws, fuel) ==
            Fired(queue[i], Attack(v, queue[i]), Requeue(v, queue[i], Attack(v, queue[i]), queue[i + 1..]), draws)
  {
    SkipResolvedPrefix(v, queue, draws, fuel, i);
    assert queue[i..][0] == queue[i] && queue[i..][1..] == queue[i + 1..];
  }

  // ---------------------------------------------------------------------
  // Across turns

  /** The view after an attack on an open cell resolves it. Only the hit and
      miss markers are updated: the `Struck(sinks)` payload of the remaining
      open cells is left as it was, although on the real board a hit can turn
      another cell of the same ship into a sinking hit. A following turn must
      therefore be given a view whose open cells report afresh. */
  function Resolve(v: View, c: Coord, o: Outcome): (r: View)
    requires ValidView(v) && InBounds(c)
    ensures ValidView(r)
    ensures o.Hit? ==> r[c.x][c.y] == HitMark
    ensures !o.Hit? ==> r[c.x][c.y] == MissMark
    ensures forall i, j :: 0 <= i < Size && 0 <= j < Size && (i != c.x || j != c.y) ==> r[i][j] == v[i][j]
  {
    v[c.x := v[c.x][c.y := if o.Hit? then HitMark else MissMark]]
  }

  predicate HitAt(v: View, c: Coord)
    requires ValidView(v)
  {
    InBounds(c) && v[c.x][c.y] == HitMark
  }

  /** The cell is next to a cell marked hit. */
  predicate NearHit(v: View, c: Coord)
    requires ValidView(v)
  {
    exists n :: n in Around(c) && HitAt(v, n)
  }

  /** Every queued cell is next to a cell marked hit. */
  predicate QueueNearHits(v: View, queue: seq<Coord>)
    requires ValidView(v)
  {
    forall k :: 0 <= k < |queue| ==> NearHit(v, queue[k])
  }

  /** Every cell the agent queues lies next to a known hit, and this survives
      the turn: the target phase only ever probes next to ships it has found. */
  lemma SmartAttackKeepsQueueNearHits(v: View, queue: seq<Coord>, draws: seq<Coord>, fuel: nat)
    requires ValidView(v) && AllInBounds(queue) && AllInBounds(draws)
    requires QueueNearHits(v, queue)
    ensures var r := SmartAttack(v, queue, draws, fuel);
            r.Fired? ==> QueueNearHits(Resolve(v, r.cell, r.outcome), r.queue)
  {
    var r := SmartAttack(v, queue, draws, fuel);
    if r.Fired? {
      var v' := Resolve(v, r.cell, r.outcome);
      forall k | 0 <= k < |r.queue|
        ensures NearHit(v', r.queue[k])
      {
        var q := r.queue[k];
        if q in queue {
          var i :| 0 <= i < |queue| && queue[i] == q;
          assert NearHit(v, queue[i]);
          var n :| n in Around(q) && HitAt(v, n);
          assert n != r.cell;
          assert HitAt(v', n);
        } else {
          AdjacentMeansDistanceOne(r.cell, q);
          assert r.cell in Around(q) && HitAt(v', r.cell);
        }
      }
    }
  }

  /** After a hit at `c` on a ship still afloat, the next turn (if the first
      neighbour queued is still open then) attacks a cell orthogonally
      adjacent to `c`. `SmartAttack` guarantees the queue it leaves after such
      a hit has this shape. */
  lemma NextShotFollowsHit(v: View, c: Coord, rest: seq<Coord>, v2: View, draws2: seq<Coord>, fuel2: nat)
    requires ValidView(v) && ValidView(v2) && AllInBounds(rest) && AllInBounds(draws2) && fuel2 > 0
    requires |NewTargets(v, c)| > 0 && Worth(v2, NewTargets(v, c)[0])
    ensures var r2 := SmartAttack(v2, Requeue(v, c, Hit(false), rest), draws2, fuel2);
            r2.Fired? && Adjacent(c, r2.cell)
  {
    var q := Requeue(v, c, Hit(false), rest);
    assert q[0] == NewTargets(v, c)[0];
  }
}

=== FILE: wiring.dfy ===
/** How the page controller drives the controller it creates: it calls
    methods by name on the object the controller returns. A name that object
    does not carry is `undefined`, and calling it throws, which ends the
    handler making the calls. */
module Wiring {
  /** The functions among the names `createSinglePlayerController` returns;
      `player` and `enemy` are data, and calling them throws too. */
  const SinglePlayerMethods: set<string> :=
    {"handlePlayerAttack", "startGame", "markShipHit", "handleRestart"}

  /** The functions among the names `createMultiPlayerController` returns;
      `player1` is data, while `player2` is returned as an arrow function. */
  const MultiplayerMethods: set<string> :=
    {"handleAttacks", "setupPlayer2ShipPlacement", "showPlayer2Placement", "startGame",
     "player2", "destroy", "handleRestart"}

  function Methods(multiplayer: bool): set<string> {
    if multiplayer then MultiplayerMethods else SinglePlayerMethods
  }

  /** The name of the method that attaches a controller's attack guards. */
  function AttackHandler(multiplayer: bool): string {
    if multiplayer then "handleAttacks" else "handlePlayerAttack"
  }

  /** The calls that ran, and whether a call threw before the end. */
  datatype CallLog = CallLog(ran: seq<string>, threw: bool)

  /** Calling `calls` in order on an object whose callable members are `api`. */
  function CallAll(api: set<string>, calls: seq<string>): (r: CallLog)
    ensures |r.ran| <= |calls| && r.ran == calls[..|r.ran|]
    ensures forall k :: 0 <= k < |r.ran| ==> r.ran[k] in api
    ensures !r.threw <==> forall k :: 0 <= k < |calls| ==> calls[k] in api
    ensures !r.threw <==> r.ran == calls
    ensures r.threw ==> |r.ran| < |calls| && calls[|r.ran|] !in api
    decreases |calls|
  {
    if |calls| == 0 then CallLog([], false)
    else if calls[0] in api then
      var rest := CallAll(api, calls[1..]);
      assert forall k :: 1 <= k < |calls| ==> calls[1..][k - 1] == calls[k];
      CallLog([calls[0]] + rest.ran, rest.threw)
    else CallLog([], true)
  }

  /** The calls `initializeGameController` makes, as written. */
  function InitCalls(multiplayer: bool): seq<string> {
    if multiplayer then ["setupPlayer2ShipPlacement", "handlePlayerAttacks"] else ["handlePlayerAttack"]
  }

  /** The same calls with the multiplayer attack handler under its exported
      name. */
  function InitCallsFixed(multiplayer: bool): seq<string> {
    if multiplayer then ["setupPlayer2ShipPlacement", "handleAttacks"] else ["handlePlayerAttack"]
  }

  /** The calls the "ready" button of player 2 makes, as written. */
  const ReadyCalls: seq<string> := ["onPlayer2Ready", "startGame"]

  /** The "ready" button calling only what the controller exports. */
  const ReadyCallsFixed: seq<string> := ["startGame"]

  /** As written, the single-player controller gets its attack guards, but
      the multiplayer start-up throws at `handlePlayerAttacks`, so the click
      guards of `handleAttacks` are never attached; and the "ready" button
      throws before `startGame`, so the game never starts. */
  lemma MultiplayerWiringThrows()
    ensures var r := CallAll(Methods(false), InitCalls(false));
            !r.threw && AttackHandler(false) in r.ran
    ensures var r := CallAll(Methods(true), InitCalls(true));
            r.threw && AttackHandler(true) !in r.ran
    ensures var r := CallAll(MultiplayerMethods, ReadyCalls);
            r.threw && "startGame" !in r.ran
  {
  }

  /** With the exported names, start-up completes in both modes and attaches
      the attack guards, and the "ready" button starts the game. */
  lemma FixedWiringAttaches(multiplayer: bool)
    ensures var r := CallAll(Methods(multiplayer), InitCallsFixed(multiplayer));
            !r.threw && AttackHandler(multiplayer) in r.ran
    ensures var r := CallAll(MultiplayerMethods, ReadyCallsFixed);
            !r.threw && "startGame" in r.ran
  {
  }
}

=== FILE: wrappers.dfy ===
/** Optional values, used for empty grid cells, for an input field that may be
    missing and for "no winner yet". */
module Wrappers {

  datatype Option<+T> = None | Some(value: T) {

    /** The value carried by Some, or `default` for None. */
    function GetOr(default: T): T {
      match this
      case Some(v) => v
      case None => default
    }
  }
}
